=== FILE: README.md ===
# Admin login for the kelurahan site, modelled in Dafny

This project models the authentication script of the kelurahan admin pages,
a Google Apps Script web app. Admin accounts live in a Google Sheet called
`Admin_Users`. Its first row is a header with the columns username, password,
nama_lengkap, role, status and last_login. The script does four things:

- it answers `login` requests by checking the username and password against
  the sheet, stamping `last_login` and returning a session token;
- it answers `verify` requests by decoding the token and checking its expiry;
- it answers `logout` requests with a plain acknowledgement;
- it offers three helpers for the script editor: `addAdminUser`,
  `changePassword` and `deactivateAdmin`.

The model follows the script's own structure.

- `values.dfy` (`JsValues`): the JavaScript values the script handles. It
  defines truthiness, `===`, property lookup and `v < number`.
- `users.dfy` (`Users`): the sheet as a grid of cells. It holds `getUsers` as
  a loop proved against a specification function, the `find` lookups, and a
  single-cell write.
- `responses.dfy` (`Responses`): the `{success, message, data}` answers and
  their fixed Indonesian messages.
- `session.dfy` (`Session`): token issue (`generateSessionToken`) and
  `handleVerify`. Base64 and JSON are replaced by an abstract codec: any pair
  of functions with the round-trip property on the values `btoa` and
  `JSON.stringify` handle without loss.
- `auth.dfy` (`Auth`): the decision `handleLogin` makes and what it writes.
- `admin.dfy` (`Admin`): `changePassword`, `deactivateAdmin` and
  `addAdminUser`, each as a function from the sheet before to the sheet after.
- `store.dfy` (`Store`): the sheet as a mutable `Sheet` object. Its methods
  do the script's steps in place, and each is proved equal to the functions
  above. `handleLogin` is split into its checks (`CheckCredentials`) and its
  write (`CompleteLogin`).
- `service.dfy` (`Service`): `doPost`, which dispatches on the `action`
  member.

Three things the script reads from its platform are parameters here. The
clock (`now`) and the random token suffix (`random`) are plain arguments. The
token codec is a `Codec` argument, constrained by `ValidCodec`.

The model follows what the code does, including where it falls short of a
conventional session design:

- Tokens carry only `timestamp`, `random` and `exp`, with no user claims. So
  `verify` of a genuine token reports `user` as undefined.
- A token is still valid at exactly its `exp`, because the check is `exp < now`.
- Tokens are not signed. Any payload with a large enough `exp` is accepted
  (`ForgedPayloadAccepted`). So is one without an `exp` member
  (`PayloadWithoutExpNeverExpires`). The same holds for an `exp` that converts
  to NaN, such as an object without its own `toString`, or a string that is not
  a plain run of digits (as modelled; see the `Session.HandleVerify` line under
  "## Left out"). This case follows from `HandleVerify`'s `ensures`. An `exp`
  of `null`, `false` or `""` converts to 0, so such a token has expired
  (`NullExpExpires`).
- An `exp` that is an object with its own `toString` member makes
  `decoded.exp < Date.now()` throw. The answer is then the catch branch's
  "Error verifikasi: TypeError: ..." (`ObjectExpFailsVerification`).
- There is no lockout or failed-attempt counter. `MAX_LOGIN_ATTEMPTS` and
  `LOCKOUT_DURATION` in `auth-config.js` are never read by the script.
- Passwords are compared verbatim with `===`. No hashing is done.

## Model

| member | source | states |
|---|---|---|
| Users.GetUsers | google-apps-script-auth.js:166-187 | the loop returns exactly the records of the specification `UsersOf`: header skipped, blank usernames skipped, `rowIndex = i + 1` |
| Users.UsersSound | google-apps-script-auth.js:171-182 | every returned record comes from a non-header row with a truthy username, copies that row's six cells, and has `rowIndex` equal to the row's 1-based sheet index |
| Users.UsersComplete | google-apps-script-auth.js:171-183 | every non-header row whose username cell is truthy appears among the returned records |
| Users.UsersOrdered | google-apps-script-auth.js:171-186 | records come out in grid order: their `rowIndex` values strictly increase |
| Users.FindFirst | google-apps-script-auth.js:72 | `find` returns the first record satisfying the test, or nothing if no record does |
| Users.Lookup | google-apps-script-auth.js:68-72 | `getUsers(...).find(...)` gives the topmost non-header row satisfying the test, with that row's cells; it gives nothing exactly when no row satisfies it |
| Users.SetCell | google-apps-script-auth.js:194 | writing one cell changes that cell and nothing else; the grid keeps its shape |
| Service.RefusalsCarryNoData | google-apps-script-auth.js:227-236 | every refused request is answered through `createResponse(false, message)` without a `data` member, because the default `data = null` is falsy |
| Auth.Authenticate | google-apps-script-auth.js:60-81 | a missing username or password is refused first; "not found" holds exactly when no row has that username with status `'active'`; otherwise the topmost such row decides, by strict equality of its password |
| Auth.PublicViewIgnoresPassword | google-apps-script-auth.js:100-104 | the user view in a login answer does not depend on the stored password: changing only the password leaves the view the same |
| Auth.Login | google-apps-script-auth.js:60-110 | handleLogin as a function of the sheet; its ensures keeps the sheet shape, and the lemmas below state its behaviour |
| Auth.MissingCredentialsIgnoreSheet | google-apps-script-auth.js:63-65 | an empty or missing username or password gives "Username dan password harus diisi", the same for every sheet, and writes nothing |
| Auth.UnknownAndInactiveIndistinguishable | google-apps-script-auth.js:72-76 | with no active row of that username, the answer is the one "tidak ditemukan atau akun tidak aktif" message, whether the user is absent or inactive, and nothing is written |
| Auth.WrongPasswordLeavesSheet | google-apps-script-auth.js:79-81 | a password not strictly equal to the topmost active row's gives "Password salah" and leaves the sheet unchanged, even if a later duplicate row has that password |
| Auth.SuccessfulLoginWritesOnlyLastLogin | google-apps-script-auth.js:83-105 | a correct password returns "Login berhasil", the token and `{username, nama, role}` of the matched row; the new sheet is exactly `SetCell` of that row's column 6 with the login time, so every row keeps its length and every other cell its value |
| Auth.LoginTokenLastsOneDay | google-apps-script-auth.js:87-99 | the token from a successful login verifies exactly while `later <= login time + 86400000` |
| Session.SessionPayload | google-apps-script-auth.js:200-207 | an issued payload has `exp = timestamp + 24 h` and no `user` member |
| Session.PayloadEncodable | google-apps-script-auth.js:200-207 | an issued payload is JSON with three distinct plain keys, and with a base-36 random suffix all its text is Latin-1, so `btoa` accepts it |
| Session.IssuedTokenDecodes | google-apps-script-auth.js:200-221 | generateSessionToken returns a non-empty token that decodeSessionToken turns back into the payload it was made from |
| Session.HandleVerify | google-apps-script-auth.js:115-138 | the only answers are success, "Token tidak valid" (exactly when the token is falsy), "Session expired" and the catch branch's conversion error (exactly when the payload's `exp` is an object with its own `toString`); it succeeds exactly when the token decodes to a truthy payload whose `exp` converts and is not below `now`, and then reports that payload's `user` |
| Session.IssuedTokenVerifies | google-apps-script-auth.js:200-221 | verify(issue(t0)) succeeds iff `now <= t0 + 86400000`, reports `user` undefined, and otherwise answers "Session expired" |
| Session.ForgedPayloadAccepted | google-apps-script-auth.js:125-133 | a payload `{exp, user}`, for any encodable `user` and any numeric `exp >= now`, is accepted and its `user` is echoed back: tokens have no integrity protection |
| Session.PayloadWithoutExpNeverExpires | google-apps-script-auth.js:127-129 | every encodable object payload without an `exp` member is accepted at every time, because `undefined < now` is false |
| Session.NullExpExpires | google-apps-script-auth.js:127-129 | a payload whose `exp` is `null` is answered "Session expired" at every time after the epoch, because `null` converts to 0 |
| Session.ObjectExpFailsVerification | google-apps-script-auth.js:127-137 | a payload whose `exp` is `{"toString": 1}` is answered with "Error verifikasi: TypeError: Cannot convert object to primitive value", never "Session valid" |
| Admin.UpdateFirstNamed | google-apps-script-auth.js:294-302 | true iff some row has that username, whatever its status; false leaves the sheet unchanged; true overwrites one column of the topmost such row only |
| Admin.PasswordChanged | google-apps-script-auth.js:291-304 | true iff some row has that username; the new password is written into column 2 of the topmost such row only, active or not; false writes nothing |
| Admin.Deactivated | google-apps-script-auth.js:314-327 | true iff some row has that username; column 5 of the topmost such row only becomes `'inactive'`; false writes nothing |
| Admin.AdminRow | google-apps-script-auth.js:271-278 | the appended row has exactly the six user columns |
| Admin.AdminAdded | google-apps-script-auth.js:266-281 | the old rows stay as they were and exactly one row is added below them, with status `'active'` |
| Admin.DeactivatedUserCannotLogIn | google-apps-script-auth.js:314-325 | when one row has that username, no login with it succeeds after deactivation |
| Admin.ActiveDuplicateSurvivesDeactivation | google-apps-script-auth.js:319-325 | deactivation touches only the topmost row of that username, active or not, so the next active row of that name below it still logs in with its own password |
| Admin.ChangedPasswordLogsIn | google-apps-script-auth.js:291-304 | after changing the password of an active account, login with the new password succeeds on that row |
| Admin.AddedAdminLogsIn | google-apps-script-auth.js:266-281 | a newly added admin can log in with the given password when no active row had that username |
| Admin.AddedToEmptySheetIsHeader | google-apps-script-auth.js:269-278 | on a sheet with no rows the added row becomes the header, and the new admin cannot log in |
| Store.Sheet.constructor | google-apps-script-auth.js:158-161 | the sheet object holds the given grid |
| Store.Sheet.SetValue | google-apps-script-auth.js:194 | one cell is overwritten in place, as `SetCell` says |
| Store.Sheet.UpdateLastLogin | google-apps-script-auth.js:192-195 | column 6 of the given row becomes the login time; nothing else changes |
| Store.Sheet.Find | google-apps-script-auth.js:68-72 | `getUsers(sheet).find(...)` on the current rows gives exactly `Users.Lookup` |
| Store.Sheet.CheckCredentials | google-apps-script-auth.js:61-81 | the guard, the active-user lookup and the password comparison give exactly `Auth.Authenticate` |
| Store.Sheet.CompleteLogin | google-apps-script-auth.js:83-105 | column 6 of the matched row becomes the login time, nothing else changes, and the answer is "Login berhasil" with the token and the public view |
| Store.Sheet.HandleLogin | google-apps-script-auth.js:60-110 | the in-place steps give the answer and the new sheet that `Auth.Login` specifies |
| Store.Sheet.ChangePassword | google-apps-script-auth.js:291-309 | result and new sheet are those of `UpdateFirstNamed` on column 2 |
| Store.Sheet.DeactivateAdmin | google-apps-script-auth.js:314-332 | result and new sheet are those of `UpdateFirstNamed` on column 5 with `'inactive'` |
| Store.Sheet.AddAdminUser | google-apps-script-auth.js:266-286 | returns true and appends the row of `AdminAdded` |
| Service.DoPost | google-apps-script-auth.js:22-40 | the answer and the new sheet are those of `Dispatch`: login, verify, logout or "Action tidak valid" |
| Service.Dispatch | google-apps-script-auth.js:22-40 | doPost as a function of the sheet; its ensures keeps the sheet shape |
| Service.UnknownActionRefused | google-apps-script-auth.js:34-35 | any action other than "login", "verify" and "logout" is answered with "Action tidak valid" and writes nothing |
| Service.OnlySuccessfulLoginWrites | google-apps-script-auth.js:27-36 | a request changes the sheet only if it is a login that succeeds |

## Left out

- Google platform calls are not modelled: `SpreadsheetApp`, `ContentService`, the CORS headers and `doOptions`. The response timestamp that `createResponse` adds is left out too. The sheet is the `rows` grid and an answer is a `Response` value.
- The catch branches of `handleLogin`, `handleLogout` and the admin helpers are left out. They only fire when the sheet service itself fails, and their messages are the platform's error text. The catch branch of `handleVerify` is modelled for the one error a decoded payload can cause there: an `exp` whose conversion to a number throws.
- Logging (`console.log`/`console.error`) and `testLogin` are left out. So is the `sessionData` object built in `handleLogin`, which is never used.
- `btoa`/`atob` and `JSON.stringify`/`JSON.parse` in the token are not modelled as text. They are an abstract `Codec` constrained by its round trip (`Session.ValidCodec`). The round trip is assumed only for `Encodable` values: JSON values whose strings and keys are all Latin-1 (`btoa` throws on anything above U+00FF) and whose keys are never made of digits only (`JSON.stringify` moves array-index keys to the front). Numbers beyond 2^53 would also lose precision; the integers line below covers that.
- `Date.now()`, `new Date()` and `Math.random()` become the parameters `now` and `random`. A login reads the clock at google-apps-script-auth.js:95, :194, :201 and :231. Only the reads at :194 (`last_login`) and :201 (the token timestamp) reach the model, and both use the same `now`.
- Admin.ChangedPasswordLogsIn: a write stores the JavaScript value exactly as given. Google Sheets parses text written with `setValue` like typed input: a leading `=` makes a formula and numeric-looking text such as "123456" becomes a number. After such a change, a login that sends the password as a string is refused with "Password salah". That parsing is not modelled.
- Admin.AddedAdminLogsIn: the same holds for the row `addAdminUser` writes with `setValues`. A username or password that Sheets would turn into a number, a date or a formula does not come back as the string that was written, and the login this lemma promises then fails.
- JavaScript numbers are unbounded integers here. Fractions, NaN and infinities are not modelled, and neither are arrays as JSON values.
- Requests are modelled one at a time, each as one step on one grid. Apps Script can run several web-app executions at once, and the script takes no lock. `handleLogin`, `changePassword` and `deactivateAdmin` read the rows (google-apps-script-auth.js:69, :294, :317) and later write by `rowIndex` (:194, :302, :325). A row inserted or deleted in between would send that write to a different row. The model does not capture this.
- Session.HandleVerify: a string-valued `exp` counts as a number only when it is a plain run of decimal digits. JavaScript would also accept whitespace, a sign, a fraction, an exponent or a hex prefix. An object `exp` is taken to throw exactly when it has its own `toString` member, which is the case for parsed JSON, whose members are never functions.
- `handleLogout` has no model of its own. It always succeeds, and `Service.Dispatch` answers "Logout berhasil" in its place.
- The sheet is assumed to keep its six user columns on every row (`Users.WellFormed`). A narrower sheet, where a write would widen the data range, is not modelled.
- An empty sheet is modelled as a grid with no rows. Google Sheets would show one blank cell. `addAdminUser` assumes `getLastRow()` equals the number of grid rows.
- There is no model of a login-attempt lockout, token signing or password hashing, because the script implements none of them. `auth-config.js` declares `MAX_LOGIN_ATTEMPTS`, `LOCKOUT_DURATION` and `SESSION_TIMEOUT`, but the script never reads them.

=== FILE: admin.dfy ===
/**
 * The administration helpers run from the script editor: changePassword,
 * deactivateAdmin and addAdminUser, as functions from the sheet before to the
 * sheet after, and how they interact with login.
 */
module Admin {
  import opened JsValues
  import opened Users
  import opened Auth

  /** Whether a helper reported success, and the sheet after it ran. */
  datatype Update = Update(ok: bool, data: Grid)

  /** Overwrite column `column` (1-based) of the topmost row whose username is
      strictly equal to `username`, whatever its status; `ok` is false and
      nothing changes when there is no such row. */
  function UpdateFirstNamed(data: Grid, username: Value, column: nat, v: Value): (r: Update)
    requires WellFormed(data) && 1 <= column <= Columns
    ensures WellFormed(r.data)
    ensures r.ok <==> exists i :: RowMatches(data, ByName(username), i)
    ensures !r.ok ==> r.data == data
    ensures r.ok ==> exists i :: IsFirstMatch(data, ByName(username), i) && r.data == SetCell(data, i, column - 1, v)
  {
    match Lookup(data, ByName(username))
    case None => Update(false, data)
    case Some(user) => Update(true, SetCell(data, user.rowIndex - 1, column - 1, v))
  }

  /** changePassword: the new password goes into column 2 of the topmost row
      of that username, active or not; false and no write when there is none. */
  function PasswordChanged(data: Grid, username: Value, newPassword: Value): (r: Update)
    requires WellFormed(data)
    ensures r.ok <==> exists i :: RowMatches(data, ByName(username), i)
    ensures !r.ok ==> r.data == data
    ensures r.ok ==> exists i ::
      IsFirstMatch(data, ByName(username), i) && r.data == SetCell(data, i, PasswordColumn - 1, newPassword)
  {
    UpdateFirstNamed(data, username, PasswordColumn, newPassword)
  }

  /** deactivateAdmin: column 5 (status) of the topmost row of that username
      becomes 'inactive'; false and no write when there is no such row. */
  function Deactivated(data: Grid, username: Value): (r: Update)
    requires WellFormed(data)
    ensures r.ok <==> exists i :: RowMatches(data, ByName(username), i)
    ensures !r.ok ==> r.data == data
    ensures r.ok ==> exists i ::
      IsFirstMatch(data, ByName(username), i) && r.data == SetCell(data, i, StatusColumn - 1, Str("inactive"))
  {
    UpdateFirstNamed(data, username, StatusColumn, Str("inactive"))
  }

  /** The row addAdminUser writes; a missing role defaults to 'admin'. */
  function AdminRow(username: Value, password: Value, namaLengkap: Value, role: Value, now: int): (row: seq<Value>)
    ensures |row| == Columns
  {
    [username, password, namaLengkap, if role == Undefined then Str("admin") else role, Str("active"), Date(now)]
  }

  /** addAdminUser: the new row goes right below the last row of the sheet. */
  function AdminAdded(data: Grid, username: Value, password: Value, namaLengkap: Value, role: Value, now: int): (r: Grid)
    requires WellFormed(data)
    ensures WellFormed(r)
    ensures |r| == |data| + 1 && r[..|data|] == data
    ensures Cell(r[|data|], 4) == Str("active")
  {
    data + [AdminRow(username, password, namaLengkap, role, now)]
  }

  /** Where the username names a single row, deactivating it makes every
      later login with that username fail before the password is looked at. */
  lemma DeactivatedUserCannotLogIn(data: Grid, username: Value, password: Value)
    requires WellFormed(data)
    requires forall i, j :: RowMatches(data, ByName(username), i) && RowMatches(data, ByName(username), j) ==> i == j
    ensures Authenticate(username, password, Deactivated(data, username).data).MissingCredentials?
         || Authenticate(username, password, Deactivated(data, username).data).UnknownOrInactive?
  {
    var after := Deactivated(data, username).data;
    forall j | 1 <= j < |after|
      ensures !RowMatches(after, ActiveByName(username), j)
    {
      if RowMatches(after, ActiveByName(username), j) {
        assert Cell(after[j], 0) == Cell(data[j], 0);
        assert RowMatches(data, ByName(username), j);
      }
    }
  }

  /** deactivateAdmin only touches the topmost row of that username, active
      or not: the next active row of that name below it still logs in with its
      own password. */
  lemma ActiveDuplicateSurvivesDeactivation(data: Grid, username: Value, password: Value, i: nat, j: nat)
    requires WellFormed(data) && Truthy(password)
    requires IsFirstMatch(data, ByName(username), i) && i < j
    requires RowMatches(data, ActiveByName(username), j) && StrictEquals(Cell(data[j], 1), password)
    requires forall k :: i < k < j ==> !RowMatches(data, ActiveByName(username), k)
    ensures Authenticate(username, password, Deactivated(data, username).data).Authenticated?
  {
    var after := Deactivated(data, username).data;
    assert after == SetCell(data, i, StatusColumn - 1, Str("inactive"));
    assert after[j] == data[j];
    assert UserAt(after, j) == UserAt(data, j);
    forall k | 1 <= k < j
      ensures !RowMatches(after, ActiveByName(username), k)
    {
      if k == i {
        assert Cell(after[k], StatusColumn - 1) == Str("inactive");
      } else if k < i {
        assert after[k] == data[k];
        assert UserAt(after, k) == UserAt(data, k);
        assert !RowMatches(data, ByName(username), k);
      } else {
        assert after[k] == data[k];
        assert UserAt(after, k) == UserAt(data, k);
        assert !RowMatches(data, ActiveByName(username), k);
      }
    }
    assert IsFirstMatch(after, ActiveByName(username), j);
    var a := Authenticate(username, password, after);
    FirstMatchUnique(after, ActiveByName(username), j, a.user.rowIndex - 1);
  }

  /** After changePassword on an active account, logging in with the new
      password succeeds on that same row. */
  lemma ChangedPasswordLogsIn(data: Grid, username: Value, newPassword: Value, i: nat)
    requires WellFormed(data) && Truthy(newPassword) && StrictEquals(newPassword, newPassword)
    requires IsFirstMatch(data, ByName(username), i)
    requires StrictEquals(Cell(data[i], 4), Str("active"))
    ensures var after := PasswordChanged(data, username, newPassword).data;
      Authenticate(username, newPassword, after) == Authenticated(UserAt(after, i))
  {
    var after := PasswordChanged(data, username, newPassword).data;
    FirstMatchUnique(data, ByName(username), i, Lookup(data, ByName(username)).value.rowIndex - 1);
    assert after == SetCell(data, i, PasswordColumn - 1, newPassword);
    forall k | 1 <= k < i
      ensures !RowMatches(after, ActiveByName(username), k)
    {
      assert UserAt(after, k) == UserAt(data, k);
      assert !RowMatches(data, ByName(username), k);
    }
    assert IsFirstMatch(after, ActiveByName(username), i);
    var a := Authenticate(username, newPassword, after);
    FirstMatchUnique(after, ActiveByName(username), i, a.user.rowIndex - 1);
  }

  /** A newly added admin whose username has no active row yet can log in
      with the password given, from the row just appended.  */
  lemma AddedAdminLogsIn(data: Grid, username: Value, password: Value, namaLengkap: Value, role: Value, now: int)
    requires WellFormed(data) && |data| >= 1
    requires Truthy(username) && StrictEquals(username, username)
    requires Truthy(password) && StrictEquals(password, password)
    requires forall i :: 1 <= i < |data| ==> !RowMatches(data, ActiveByName(username), i)
    ensures var after := AdminAdded(data, username, password, namaLengkap, role, now);
      Authenticate(username, password, after) == Authenticated(UserAt(after, |data|))
  {
    var after := AdminAdded(data, username, password, namaLengkap, role, now);
    forall k | 1 <= k < |data|
      ensures !RowMatches(after, ActiveByName(username), k)
    {
      assert after[k] == data[k];
      assert UserAt(after, k) == UserAt(data, k);
      assert !RowMatches(data, ActiveByName(username), k);
    }
    assert after[|data|] == AdminRow(username, password, namaLengkap, role, now);
    assert IsFirstMatch(after, ActiveByName(username), |data|);
    var a := Authenticate(username, password, after);
    FirstMatchUnique(after, ActiveByName(username), |data|, a.user.rowIndex - 1);
  }

  /** On a sheet with no rows the appended row lands in row 1, which the
      script reads as the header: the new admin cannot log in. */
  lemma AddedToEmptySheetIsHeader(username: Value, password: Value, namaLengkap: Value, role: Value, now: int)
    ensures Authenticate(username, password, AdminAdded([], username, password, namaLengkap, role, now)).MissingCredentials?
         || Authenticate(username, password, AdminAdded([], username, password, namaLengkap, role, now)).UnknownOrInactive?
  {
  }
}

=== FILE: auth.dfy ===
/**
 * handleLogin's decision and its effect on the sheet: the credential guard,
 * the first-match lookup of an active user, the verbatim password comparison,
 * the `last_login` write and the public user view.
 */
module Auth {
  import opened JsValues
  import opened Users
  import opened Responses
  import opened Session

  /** How a login attempt ends; the last two carry the matched record. */
  datatype LoginOutcome =
    | MissingCredentials
    | UnknownOrInactive
    | WrongPassword(user: User)
    | Authenticated(user: User)

  /** The answer to a request together with the sheet after it. */
  datatype Outcome = Outcome(response: Response, data: Grid)

  /** The credential check of handleLogin against the sheet `data`. */
  function Authenticate(username: Value, password: Value, data: Grid): (r: LoginOutcome)
    ensures r.MissingCredentials? <==> !Truthy(username) || !Truthy(password)
    ensures r.UnknownOrInactive? <==>
      Truthy(username) && Truthy(password) &&
      forall i :: 1 <= i < |data| ==> !RowMatches(data, ActiveByName(username), i)
    ensures (r.WrongPassword? || r.Authenticated?) ==>
      && 2 <= r.user.rowIndex <= |data|
      && IsFirstMatch(data, ActiveByName(username), r.user.rowIndex - 1)
      && r.user == UserAt(data, r.user.rowIndex - 1)
    ensures r.Authenticated? ==> StrictEquals(r.user.password, password)
    ensures r.WrongPassword? ==> !StrictEquals(r.user.password, password)
  {
    if !Truthy(username) || !Truthy(password) then MissingCredentials
    else
      match Lookup(data, ActiveByName(username))
      case None => UnknownOrInactive
      case Some(user) =>
        if !StrictEquals(user.password, password) then WrongPassword(user) else Authenticated(user)
  }

  /** The `{username, nama, role}` view of a record: the record's name, full
      name and role, and nothing from which its password could be read. */
  function PublicView(u: User): (v: PublicUser)
    ensures v.username == u.username && v.nama == u.namaLengkap && v.role == u.role
  {
    PublicUser(u.username, u.namaLengkap, u.role)
  }

  /** handleLogin on the sheet `data` at time `now`, issuing a token with the
      random suffix `random`. */
  function Login(data: Grid, username: Value, password: Value, c: Codec, now: int, random: string): (r: Outcome)
    requires WellFormed(data)
    ensures WellFormed(r.data)
  {
    match Authenticate(username, password, data)
    case MissingCredentials => Outcome(Failure(MissingCredentialsMessage), data)
    case UnknownOrInactive => Outcome(Failure(UnknownOrInactiveMessage), data)
    case WrongPassword(_) => Outcome(Failure(WrongPasswordMessage), data)
    case Authenticated(user) =>
      var token := GenerateSessionToken(c, now, random);
      Outcome(Response(true, LoginSuccessMessage, LoginData(token, PublicView(user))),
              SetCell(data, user.rowIndex - 1, LastLoginColumn - 1, Date(now)))
  }

  /** What handleLogin answers and writes once the credentials check out. */
  lemma LoginWhenAuthenticated(data: Grid, username: Value, password: Value,
                               c: Codec, now: int, random: string, user: User)
    requires WellFormed(data) && Authenticate(username, password, data) == Authenticated(user)
    ensures 2 <= user.rowIndex <= |data|
    ensures Login(data, username, password, c, now, random)
         == Outcome(Response(true, LoginSuccessMessage, LoginData(GenerateSessionToken(c, now, random), PublicView(user))),
                    SetCell(data, user.rowIndex - 1, LastLoginColumn - 1, Date(now)))
  {
  }

  /** The view a login answer carries does not depend on the stored password:
      two records that differ only in it give the same view. */
  lemma PublicViewIgnoresPassword(u: User, p: Value)
    ensures PublicView(u.(password := p)) == PublicView(u)
  {
  }

  /** At most one row can be the first match. */
  lemma FirstMatchUnique(data: Grid, q: Query, i: nat, j: nat)
    requires IsFirstMatch(data, q, i) && IsFirstMatch(data, q, j)
    ensures i == j
  {
  }

  /** A missing username or password is refused with the same answer whatever
      the sheet holds, and nothing is written. */
  lemma MissingCredentialsIgnoreSheet(d1: Grid, d2: Grid, username: Value, password: Value,
                                      c: Codec, now: int, random: string)
    requires WellFormed(d1) && WellFormed(d2)
    requires !Truthy(username) || !Truthy(password)
    ensures Login(d1, username, password, c, now, random) == Outcome(Failure(MissingCredentialsMessage), d1)
    ensures Login(d2, username, password, c, now, random).response == Login(d1, username, password, c, now, random).response
  {
  }

  /** With no active row of that username, the answer is the same message
      whether the username is absent or only present as an inactive account,
      and nothing is written. */
  lemma UnknownAndInactiveIndistinguishable(data: Grid, username: Value, password: Value,
                                            c: Codec, now: int, random: string)
    requires WellFormed(data) && Truthy(username) && Truthy(password)
    requires forall i :: 1 <= i < |data| ==>
      !(IsUserRow(data, i) && StrictEquals(Cell(data[i], 0), username) && StrictEquals(Cell(data[i], 4), Str("active")))
    ensures Login(data, username, password, c, now, random) == Outcome(Failure(UnknownOrInactiveMessage), data)
  {
  }

  /** The topmost active row of that username decides the login: a password
      that is not strictly equal to that row's is refused with
      "Password salah" and the sheet is left as it was, even when a later
      duplicate row holds the presented password. */
  lemma WrongPasswordLeavesSheet(data: Grid, username: Value, password: Value,
                                 c: Codec, now: int, random: string, i: nat)
    requires WellFormed(data) && Truthy(username) && Truthy(password)
    requires IsFirstMatch(data, ActiveByName(username), i)
    requires !StrictEquals(Cell(data[i], 1), password)
    ensures Login(data, username, password, c, now, random) == Outcome(Failure(WrongPasswordMessage), data)
  {
  }

  /** A password strictly equal to the topmost active row's logs in: the
      answer carries the token and that row's username, name and role, and
      the only cell written is that row's `last_login`, set to `now`. */
  lemma SuccessfulLoginWritesOnlyLastLogin(data: Grid, username: Value, password: Value,
                                           c: Codec, now: int, random: string, i: nat)
    requires WellFormed(data) && Truthy(username) && Truthy(password)
    requires IsFirstMatch(data, ActiveByName(username), i)
    requires StrictEquals(Cell(data[i], 1), password)
    ensures var r := Login(data, username, password, c, now, random);
      && r.response == Response(true, LoginSuccessMessage,
           LoginData(GenerateSessionToken(c, now, random),
                     PublicUser(Cell(data[i], 0), Cell(data[i], 2), Cell(data[i], 3))))
      && r.data == SetCell(data, i, LastLoginColumn - 1, Date(now))
      && |r.data| == |data|
      && (forall j :: 0 <= j < |data| ==> |r.data[j]| == |data[j]|)
      && r.data[i][LastLoginColumn - 1] == Date(now)
      && forall j, k :: 0 <= j < |data| && 0 <= k < |data[j]| && (j != i || k != LastLoginColumn - 1) ==>
           r.data[j][k] == data[j][k]
  {
    var a := Authenticate(username, password, data);
    FirstMatchUnique(data, ActiveByName(username), i, a.user.rowIndex - 1);
  }

  /** The token a successful login returns verifies until 24 hours after the
      login and is reported expired afterwards. */
  lemma LoginTokenLastsOneDay(data: Grid, username: Value, password: Value,
                              c: Codec, now: int, random: string, later: int)
    requires WellFormed(data) && ValidCodec(c) && IsBase36Digits(random)
    requires Login(data, username, password, c, now, random).response.success
    ensures var token := Login(data, username, password, c, now, random).response.data.token;
      HandleVerify(c, Str(token), later).success <==> later <= now + SessionLifetimeMillis
  {
    IssuedTokenVerifies(c, now, random, later);
  }
}

=== FILE: responses.dfy ===
/**
 * The JSON answers the web app sends back (`createResponse`), without the
 * response timestamp and the CORS headers, and the fixed messages they carry.
 */
module Responses {
  import opened JsValues

  /** The user view a successful login returns: never the password. */
  datatype PublicUser = PublicUser(username: Value, nama: Value, role: Value)

  /** The `data` member of a response; `NoData` when `createResponse` gets none. */
  datatype Data =
    | NoData
    | LoginData(token: string, user: PublicUser)
    | VerifyData(sessionUser: Value)

  datatype Response = Response(success: bool, message: string, data: Data)

  /** `createResponse(false, message)`: the default `data = null` is falsy, so
      the answer carries the message and no `data` member. */
  function Failure(message: string): (r: Response)
    ensures !r.success && r.message == message && r.data.NoData?
  {
    Response(false, message, NoData)
  }

  const MissingCredentialsMessage := "Username dan password harus diisi"
  const UnknownOrInactiveMessage := "Username tidak ditemukan atau akun tidak aktif"
  const WrongPasswordMessage := "Password salah"
  const LoginSuccessMessage := "Login berhasil"
  const MissingTokenMessage := "Token tidak valid"
  const ExpiredMessage := "Session expired"
  const ValidSessionMessage := "Session valid"
  const LogoutMessage := "Logout berhasil"
  /** Prefix of the failure handleVerify's catch branch reports. */
  const VerifyErrorPrefix := "Error verifikasi: "
  const InvalidActionMessage := "Action tidak valid"
}

=== FILE: service.dfy ===
/**
 * doPost: the web app's single entry point.  The POST body is parsed as JSON
 * and its `action` member selects login, verify or logout; anything else is
 * refused.  A body that fails to parse, or that parses to null, ends in the
 * catch branch with "Error: " and the text of the JavaScript error.
 */
module Service {
  import opened JsValues
  import opened Users
  import opened Responses
  import opened Session
  import opened Auth
  import opened Store

  /** The POST body after `JSON.parse`: either the parsed value or the text of
      the SyntaxError the parser threw. */
  datatype Request = Malformed(parseError: string) | Parsed(body: Value)

  /** What V8 reports when `data.action` is read on a body that parsed to null. */
  const NullBodyError := "TypeError: Cannot read properties of null (reading 'action')"

  /** doPost on the sheet `data`, at time `now`, with `random` the suffix a
      login would put in its token. */
  function Dispatch(data: Grid, request: Request, c: Codec, now: int, random: string): (r: Outcome)
    requires WellFormed(data)
    ensures WellFormed(r.data)
  {
    match request
    case Malformed(error) => Outcome(Failure("Error: " + error), data)
    case Parsed(body) =>
      if body.Null? || body.Undefined? then Outcome(Failure("Error: " + NullBodyError), data)
      else
        var action := Get(body, "action");
        if action == Str("login") then
          Login(data, Get(body, "username"), Get(body, "password"), c, now, random)
        else if action == Str("verify") then
          Outcome(HandleVerify(c, Get(body, "token"), now), data)
        else if action == Str("logout") then
          Outcome(Response(true, LogoutMessage, NoData), data)
        else
          Outcome(Failure(InvalidActionMessage), data)
  }

  method DoPost(sheet: Sheet, request: Request, c: Codec, now: int, random: string)
    returns (response: Response)
    requires sheet.Valid()
    modifies sheet
    ensures sheet.Valid()
    ensures Outcome(response, sheet.rows) == Dispatch(old(sheet.rows), request, c, now, random)
  {
    match request {
      case Malformed(error) =>
        response := Failure("Error: " + error);
      case Parsed(body) =>
        if body.Null? || body.Undefined? {
          return Failure("Error: " + NullBodyError);
        }
        var action := Get(body, "action");
        if action == Str("login") {
          response := sheet.HandleLogin(Get(body, "username"), Get(body, "password"), c, now, random);
        } else if action == Str("verify") {
          response := HandleVerify(c, Get(body, "token"), now);
        } else if action == Str("logout") {
          response := Response(true, LogoutMessage, NoData);
        } else {
          response := Failure(InvalidActionMessage);
        }
    }
  }

  /** Any `action` other than the strings "login", "verify" and "logout" is
      refused with "Action tidak valid" and writes nothing. */
  lemma UnknownActionRefused(data: Grid, body: Value, c: Codec, now: int, random: string)
    requires WellFormed(data) && !body.Null? && !body.Undefined?
    requires Get(body, "action") !in {Str("login"), Str("verify"), Str("logout")}
    ensures Dispatch(data, Parsed(body), c, now, random) == Outcome(Failure(InvalidActionMessage), data)
  {
  }

  /** Every refused request is answered without a `data` member: only a
      successful login or verify carries data. */
  lemma RefusalsCarryNoData(data: Grid, request: Request, c: Codec, now: int, random: string)
    requires WellFormed(data)
    ensures !Dispatch(data, request, c, now, random).response.success ==>
      Dispatch(data, request, c, now, random).response.data.NoData?
  {
  }

  /** Only a login that authenticates writes to the sheet; every other request
      leaves it as it was. */
  lemma OnlySuccessfulLoginWrites(data: Grid, request: Request, c: Codec, now: int, random: string)
    requires WellFormed(data)
    requires Dispatch(data, request, c, now, random).data != data
    ensures request.Parsed? && Get(request.body, "action") == Str("login")
    ensures Dispatch(data, request, c, now, random).response.success
  {
  }
}

=== FILE: session.dfy ===
/**
 * Session tokens: `generateSessionToken`, `decodeSessionToken` and
 * `handleVerify`.  A token is the Base64 text of the JSON of a payload object
 * {timestamp, random, exp}.  The text codec is kept abstract: a `Codec` is
 * any pair of functions for which decoding the encoding of a value that
 * `btoa(JSON.stringify(...))` accepts and restores gives that value back.
 * The clock (`Date.now()`) and the random suffix (`Math.random()`) are
 * parameters.
 */
module Session {
  import opened JsValues
  import opened Responses

  /** 24 hours in milliseconds, the lifetime written into every token. */
  const SessionLifetimeMillis: int := 24 * 60 * 60 * 1000

  /** `encode` stands for `btoa(JSON.stringify(v))`; `decode` for
      `decodeSessionToken`, i.e. `JSON.parse(atob(token))` with `None` where
      that throws and the function returns null. */
  datatype Codec = Codec(encode: Value -> string, decode: Value -> Option<Value>)

  /** `btoa` accepts only text whose characters are all at most U+00FF. */
  predicate IsLatin1(s: string)
  {
    forall i :: 0 <= i < |s| ==> s[i] as int <= 0xFF
  }

  /** Every string and property key inside `v` is Latin-1, so its JSON text is. */
  predicate AllLatin1(v: Value)
    decreases v
  {
    match v
    case Str(s) => IsLatin1(s)
    case Obj(fields) => forall i :: 0 <= i < |fields| ==> IsLatin1(fields[i].key) && AllLatin1(fields[i].val)
    case _ => true
  }

  /** The values `btoa(JSON.stringify(v))` encodes without throwing and
      `JSON.parse(atob(...))` gives back unchanged. */
  predicate Encodable(v: Value)
  {
    IsJson(v) && AllLatin1(v)
  }

  /** The round trip the script relies on: the encoding of an encodable value
      is a non-empty text that decodes back to that value. */
  ghost predicate ValidCodec(c: Codec)
  {
    forall v :: Encodable(v) ==> c.encode(v) != "" && c.decode(Str(c.encode(v))) == Some(v)
  }

  /** The characters `Math.random().toString(36).substring(2)` is made of. */
  predicate IsBase36Digits(s: string)
  {
    forall i :: 0 <= i < |s| ==> IsDigit(s[i]) || 'a' <= s[i] <= 'z'
  }

  /** A key made of ASCII letters is Latin-1 text and not a digit key. */
  lemma LetterKey(k: string)
    requires |k| > 0 && forall i :: 0 <= i < |k| ==> 'a' <= k[i] <= 'z' || 'A' <= k[i] <= 'Z'
    ensures IsLatin1(k) && !IsDigitKey(k)
  {
    assert !IsDigit(k[0]);
  }

  /** The payload object of a token issued at `timestamp`. */
  function SessionPayload(timestamp: int, random: string): (p: Value)
    ensures Get(p, "exp") == Num(timestamp + SessionLifetimeMillis)
    ensures Get(p, "user") == Undefined
  {
    var fields := [Field("timestamp", Num(timestamp)),
                   Field("random", Str(random)),
                   Field("exp", Num(timestamp + SessionLifetimeMillis))];
    assert "timestamp" != "exp" && "random" != "exp" && "timestamp" != "user" && "random" != "user";
    assert FieldValue(fields[1..][1..], "exp") == fields[2].val;
    assert FieldValue(fields[1..], "exp") == fields[2].val;
    Obj(fields)
  }

  /** An issued payload is JSON with three distinct plain keys, and it is
      encodable because the random suffix is made of base-36 digits. */
  lemma PayloadEncodable(timestamp: int, random: string)
    ensures IsJson(SessionPayload(timestamp, random))
    ensures IsBase36Digits(random) ==> Encodable(SessionPayload(timestamp, random))
  {
    assert "timestamp" != "exp" && "random" != "exp" && "timestamp" != "random";
    LetterKey("timestamp");
    LetterKey("random");
    LetterKey("exp");
  }

  /** generateSessionToken, with `timestamp = Date.now()` and `random` the
      base-36 digits of `Math.random()`. */
  function GenerateSessionToken(c: Codec, timestamp: int, random: string): string
  {
    c.encode(SessionPayload(timestamp, random))
  }

  /** An issued token is non-empty text that decodes back to the payload it
      was made from. */
  lemma IssuedTokenDecodes(c: Codec, timestamp: int, random: string)
    requires ValidCodec(c) && IsBase36Digits(random)
    ensures GenerateSessionToken(c, timestamp, random) != ""
    ensures c.decode(Str(GenerateSessionToken(c, timestamp, random))) == Some(SessionPayload(timestamp, random))
  {
    PayloadEncodable(timestamp, random);
  }

  /** The payload a truthy token decodes to, when the answer gets past
      `!decoded`. */
  predicate DecodesToPayload(c: Codec, token: Value)
  {
    Truthy(token) && c.decode(token).Some? && Truthy(c.decode(token).value)
  }

  /** handleVerify for the request's `token` member at time `now`: a falsy
      token is refused; a token that does not decode or decodes to a falsy
      value has expired; an `exp` whose comparison with `now` throws ends in
      the catch branch; an `exp` below `now` has expired; otherwise the
      session is valid and the payload's `user` member is returned. */
  function HandleVerify(c: Codec, token: Value, now: int): (r: Response)
    ensures r.success || r == Failure(MissingTokenMessage) || r == Failure(ExpiredMessage)
         || r == Failure(VerifyErrorPrefix + ConversionError)
    ensures r == Failure(MissingTokenMessage) <==> !Truthy(token)
    ensures r == Failure(VerifyErrorPrefix + ConversionError) <==>
      DecodesToPayload(c, token) && ConversionThrows(Get(c.decode(token).value, "exp"))
    ensures r.success <==>
      && DecodesToPayload(c, token)
      && !ConversionThrows(Get(c.decode(token).value, "exp"))
      && !LessThan(Get(c.decode(token).value, "exp"), now)
    ensures r.success ==> r == Response(true, ValidSessionMessage, VerifyData(Get(c.decode(token).value, "user")))
  {
    if !Truthy(token) then Failure(MissingTokenMessage)
    else
      match c.decode(token)
      case None => Failure(ExpiredMessage)
      case Some(decoded) =>
        if !Truthy(decoded) then Failure(ExpiredMessage)
        else if ConversionThrows(Get(decoded, "exp")) then Failure(VerifyErrorPrefix + ConversionError)
        else if LessThan(Get(decoded, "exp"), now) then Failure(ExpiredMessage)
        else Response(true, ValidSessionMessage, VerifyData(Get(decoded, "user")))
  }

  /** A token issued at `t0` verifies exactly up to and including
      `t0 + 24h`, and "Session expired" afterwards.  The payload holds no user
      claims, so a valid session reports `user` as undefined. */
  lemma IssuedTokenVerifies(c: Codec, t0: int, random: string, now: int)
    requires ValidCodec(c) && IsBase36Digits(random)
    ensures var r := HandleVerify(c, Str(GenerateSessionToken(c, t0, random)), now);
      && (r.success <==> now <= t0 + SessionLifetimeMillis)
      && (r.success ==> r == Response(true, ValidSessionMessage, VerifyData(Undefined)))
      && (!r.success ==> r == Failure(ExpiredMessage))
  {
    IssuedTokenDecodes(c, t0, random);
  }

  /** Nothing in a token is protected: any JSON payload with a numeric `exp`
      not below `now` is accepted, and its `user` member is reported back. */
  lemma ForgedPayloadAccepted(c: Codec, user: Value, exp: int, now: int)
    requires ValidCodec(c) && Encodable(user) && exp >= now
    ensures var forged := Obj([Field("exp", Num(exp)), Field("user", user)]);
      HandleVerify(c, Str(c.encode(forged)), now) == Response(true, ValidSessionMessage, VerifyData(user))
  {
    var forged := Obj([Field("exp", Num(exp)), Field("user", user)]);
    assert "exp" != "user";
    assert FieldValue(forged.fields[1..], "user") == user;
    LetterKey("exp");
    LetterKey("user");
    assert Encodable(forged);
    assert c.decode(Str(c.encode(forged))) == Some(forged);
  }

  /** A payload without `exp` never expires: `undefined < now` is false. */
  lemma PayloadWithoutExpNeverExpires(c: Codec, p: Value, now: int)
    requires ValidCodec(c) && Encodable(p) && p.Obj? && Get(p, "exp") == Undefined
    ensures HandleVerify(c, Str(c.encode(p)), now).success
  {
  }

  /** An `exp` of `null` converts to 0, so such a token has expired at every
      time after the epoch. */
  lemma NullExpExpires(c: Codec, now: int)
    requires ValidCodec(c) && now > 0
    ensures HandleVerify(c, Str(c.encode(Obj([Field("exp", Null)]))), now) == Failure(ExpiredMessage)
  {
    LetterKey("exp");
    assert Encodable(Obj([Field("exp", Null)]));
  }

  /** An `exp` that is an object with its own `toString` member cannot be
      compared with `now`: the comparison throws and the answer is the catch
      branch's "Error verifikasi: ..." failure, never "Session valid". */
  lemma ObjectExpFailsVerification(c: Codec, now: int)
    requires ValidCodec(c)
    ensures var payload := Obj([Field("exp", Obj([Field("toString", Num(1))]))]);
      HandleVerify(c, Str(c.encode(payload)), now) == Failure(VerifyErrorPrefix + ConversionError)
  {
    var inner := Obj([Field("toString", Num(1))]);
    var payload := Obj([Field("exp", inner)]);
    LetterKey("exp");
    LetterKey("toString");
    assert Encodable(inner);
    assert Encodable(payload);
    assert Get(payload, "exp") == inner;
    assert inner.fields[0].key == "toString";
  }
}

=== FILE: store.dfy ===
/**
 * The Admin_Users sheet as a mutable object.  The script reaches it through
 * `getSheet()`; here it is a `Sheet` whose `rows` field holds the values
 * `getDataRange().getValues()` would return, updated in place by the writes
 * the script makes with `getRange(row, column).setValue(v)` and `setValues`.
 */
module Store {
  import opened JsValues
  import opened Users
  import opened Responses
  import opened Session
  import opened Auth
  import opened Admin

  class Sheet {
    var rows: Grid

    ghost predicate Valid()
      reads this
    {
      WellFormed(rows)
    }

    constructor (data: Grid)
      requires WellFormed(data)
      ensures Valid() && rows == data
    {
      rows := data;
    }

    /** `getRange(row, column).setValue(v)`, both indices 1-based. */
    method SetValue(row: nat, column: nat, v: Value)
      requires Valid() && 1 <= row <= |rows| && 1 <= column <= Columns
      modifies this
      ensures Valid()
      ensures rows == SetCell(old(rows), row - 1, column - 1, v)
    {
      rows := rows[row - 1 := rows[row - 1][column - 1 := v]];
    }

    /** updateLastLogin: column 6 of the given sheet row becomes the login time. */
    method UpdateLastLogin(rowIndex: nat, now: int)
      requires Valid() && 1 <= rowIndex <= |rows|
      modifies this
      ensures Valid()
      ensures rows == SetCell(old(rows), rowIndex - 1, LastLoginColumn - 1, Date(now))
    {
      SetValue(rowIndex, LastLoginColumn, Date(now));
    }

    /** `getUsers(sheet).find(...)` on the current rows. */
    method Find(q: Query) returns (user: Option<User>)
      requires Valid()
      ensures user == Lookup(rows, q)
    {
      var users := GetUsers(rows);
      var found := FindFirst(users, q);
      if found.None? {
        return None;
      }
      user := Some(users[found.value]);
    }

    /** The checks handleLogin makes before it writes: the credential guard,
        the lookup of an active row of that username and the password
        comparison. */
    method CheckCredentials(username: Value, password: Value) returns (decision: LoginOutcome)
      requires Valid()
      ensures decision == Authenticate(username, password, rows)
    {
      if !Truthy(username) || !Truthy(password) {
        return MissingCredentials;
      }
      var found := Find(ActiveByName(username));
      if found.None? {
        return UnknownOrInactive;
      }
      var user := found.value;
      if !StrictEquals(user.password, password) {
        return WrongPassword(user);
      }
      return Authenticated(user);
    }

    /** What handleLogin does once the credentials check out: stamp the
        matched row's `last_login`, issue a token and answer with the public
        view of the user. */
    method CompleteLogin(user: User, c: Codec, now: int, random: string) returns (response: Response)
      requires Valid() && 1 <= user.rowIndex <= |rows|
      modifies this
      ensures Valid()
      ensures rows == SetCell(old(rows), user.rowIndex - 1, LastLoginColumn - 1, Date(now))
      ensures response == Response(true, LoginSuccessMessage, LoginData(GenerateSessionToken(c, now, random), PublicView(user)))
    {
      UpdateLastLogin(user.rowIndex, now);
      var token := GenerateSessionToken(c, now, random);
      response := Response(true, LoginSuccessMessage, LoginData(token, PublicView(user)));
    }

    /** handleLogin, for the request's `username` and `password` members. */
    method HandleLogin(username: Value, password: Value, c: Codec, now: int, random: string)
      returns (response: Response)
      requires Valid()
      modifies this
      ensures Valid()
      ensures Outcome(response, rows) == Login(old(rows), username, password, c, now, random)
    {
      var decision := CheckCredentials(username, password);
      match decision {
        case MissingCredentials =>
          response := Failure(MissingCredentialsMessage);
        case UnknownOrInactive =>
          response := Failure(UnknownOrInactiveMessage);
        case WrongPassword(_) =>
          response := Failure(WrongPasswordMessage);
        case Authenticated(user) =>
          LoginWhenAuthenticated(rows, username, password, c, now, random, user);
          response := CompleteLogin(user, c, now, random);
      }
    }

    /** changePassword: false, and no write, when no row has that username. */
    method ChangePassword(username: Value, newPassword: Value) returns (ok: bool)
      requires Valid()
      modifies this
      ensures Valid()
      ensures Update(ok, rows) == PasswordChanged(old(rows), username, newPassword)
    {
      var found := Find(ByName(username));
      if found.None? {
        return false;
      }
      SetValue(found.value.rowIndex, PasswordColumn, newPassword);
      return true;
    }

    /** deactivateAdmin: false, and no write, when no row has that username. */
    method DeactivateAdmin(username: Value) returns (ok: bool)
      requires Valid()
      modifies this
      ensures Valid()
      ensures Update(ok, rows) == Deactivated(old(rows), username)
    {
      var found := Find(ByName(username));
      if found.None? {
        return false;
      }
      SetValue(found.value.rowIndex, StatusColumn, Str("inactive"));
      return true;
    }

    /** addAdminUser: one active row appended below the last row. */
    method AddAdminUser(username: Value, password: Value, namaLengkap: Value, role: Value, now: int)
      returns (ok: bool)
      requires Valid()
      modifies this
      ensures Valid()
      ensures ok && rows == AdminAdded(old(rows), username, password, namaLengkap, role, now)
    {
      var lastRow := |rows|;
      var assignedRole := if role == Undefined then Str("admin") else role;
      rows := rows[..lastRow] + [[username, password, namaLengkap, assignedRole, Str("active"), Date(now)]];
      return true;
    }
  }
}

=== FILE: users.dfy ===
/**
 * The Admin_Users sheet as the script reads it: a grid of cell values whose
 * first row is the header (username, password, nama_lengkap, role, status,
 * last_login), the user records built from it, and the first-match lookup
 * (`Array.prototype.find`) the script runs over those records.
 */
module Users {
  import opened JsValues

  /** The sheet's values, row by row, as `getDataRange().getValues()` returns them. */
  type Grid = seq<seq<Value>>

  /** Number of columns of the user sheet, and the 1-based columns the script writes. */
  const Columns: nat := 6
  const PasswordColumn: nat := 2
  const StatusColumn: nat := 5
  const LastLoginColumn: nat := 6

  /** The shape the sheet keeps: every row spans at least the six user columns. */
  predicate WellFormed(data: Grid)
  {
    forall i :: 0 <= i < |data| ==> |data[i]| >= Columns
  }

  /** `row[k]`: cells past the end of a row read as `undefined`. */
  function Cell(row: seq<Value>, k: nat): Value
  {
    if k < |row| then row[k] else Undefined
  }

  /** A user record; `rowIndex` is the 1-based sheet row it was read from. */
  datatype User = User(
    rowIndex: nat,
    username: Value,
    password: Value,
    namaLengkap: Value,
    role: Value,
    status: Value,
    lastLogin: Value)

  /** The record built from grid row `i` (0-based), which is sheet row `i + 1`. */
  function UserAt(data: Grid, i: nat): User
    requires i < |data|
  {
    var row := data[i];
    User(i + 1, Cell(row, 0), Cell(row, 1), Cell(row, 2), Cell(row, 3), Cell(row, 4), Cell(row, 5))
  }

  /** Whether grid row `i` yields a user: it is not the header and its username is truthy. */
  predicate IsUserRow(data: Grid, i: nat)
  {
    1 <= i < |data| && Truthy(Cell(data[i], 0))
  }

  /** The records the loop has collected after visiting grid rows `1 .. n - 1`. */
  function UsersBefore(data: Grid, n: nat): seq<User>
    requires n <= |data|
  {
    if n <= 1 then []
    else UsersBefore(data, n - 1) + (if IsUserRow(data, n - 1) then [UserAt(data, n - 1)] else [])
  }

  /** The records `getUsers` returns for the whole grid. */
  function UsersOf(data: Grid): seq<User>
  {
    UsersBefore(data, |data|)
  }

  /** getUsers: skip the header, skip rows with an empty username, record the sheet row. */
  method GetUsers(data: Grid) returns (users: seq<User>)
    ensures users == UsersOf(data)
  {
    users := [];
    var i := 1;
    while i < |data|
      invariant 1 <= i && (i <= |data| || |data| == 0)
      invariant users == UsersBefore(data, if |data| == 0 then 0 else i)
    {
      var row := data[i];
      if Truthy(Cell(row, 0)) {
        users := users + [User(i + 1, Cell(row, 0), Cell(row, 1), Cell(row, 2), Cell(row, 3), Cell(row, 4), Cell(row, 5))];
      }
      i := i + 1;
    }
  }

  /** Every collected record comes from a non-header row with a truthy username,
      read cell for cell, and carries that row's sheet index. */
  lemma {:induction false} UsersSound(data: Grid, n: nat, k: nat)
    requires n <= |data|
    requires k < |UsersBefore(data, n)|
    ensures var u := UsersBefore(data, n)[k];
      2 <= u.rowIndex <= n && IsUserRow(data, u.rowIndex - 1) && u == UserAt(data, u.rowIndex - 1)
  {
    if k < |UsersBefore(data, n - 1)| {
      UsersSound(data, n - 1, k);
    }
  }

  /** Every non-header row with a truthy username is collected; `k` is its position. */
  lemma {:induction false} UsersComplete(data: Grid, n: nat, i: nat) returns (k: nat)
    requires n <= |data|
    requires IsUserRow(data, i) && i < n
    ensures k < |UsersBefore(data, n)| && UsersBefore(data, n)[k] == UserAt(data, i)
  {
    if i == n - 1 {
      k := |UsersBefore(data, n - 1)|;
    } else {
      k := UsersComplete(data, n - 1, i);
    }
  }

  /** Records appear in grid order: sheet indices strictly increase. */
  lemma {:induction false} UsersOrdered(data: Grid, n: nat, j: nat, k: nat)
    requires n <= |data|
    requires j < k < |UsersBefore(data, n)|
    ensures UsersBefore(data, n)[j].rowIndex < UsersBefore(data, n)[k].rowIndex
  {
    var prefix := UsersBefore(data, n - 1);
    if k < |prefix| {
      UsersOrdered(data, n - 1, j, k);
    } else {
      UsersSound(data, n - 1, j);
    }
  }

  /** What a `find` callback tests: the username alone (changePassword,
      deactivateAdmin) or the username and an active status (handleLogin). */
  datatype Query = ByName(name: Value) | ActiveByName(name: Value)

  predicate Matches(q: Query, u: User)
  {
    match q
    case ByName(name) => StrictEquals(u.username, name)
    case ActiveByName(name) => StrictEquals(u.username, name) && StrictEquals(u.status, Str("active"))
  }

  /** `users.find(...)`, as the index of the element it returns. */
  function FindFirst(users: seq<User>, q: Query): (r: Option<nat>)
    ensures r.Some? ==> r.value < |users| && Matches(q, users[r.value])
    ensures r.Some? ==> forall j :: 0 <= j < r.value ==> !Matches(q, users[j])
    ensures r.None? ==> forall j :: 0 <= j < |users| ==> !Matches(q, users[j])
  {
    if |users| == 0 then None
    else if Matches(q, users[0]) then Some(0)
    else
      match FindFirst(users[1..], q)
      case None => None
      case Some(k) => Some(k + 1)
  }

  /** Grid row `i` is a user row whose record satisfies `q`. */
  predicate RowMatches(data: Grid, q: Query, i: nat)
  {
    IsUserRow(data, i) && Matches(q, UserAt(data, i))
  }

  /** Grid row `i` is the topmost row whose record satisfies `q`. */
  predicate IsFirstMatch(data: Grid, q: Query, i: nat)
  {
    RowMatches(data, q, i) && forall j :: 1 <= j < i ==> !RowMatches(data, q, j)
  }

  /** `getUsers(sheet).find(...)`: the record of the topmost grid row that
      satisfies `q`, or nothing when no row does. */
  function Lookup(data: Grid, q: Query): (r: Option<User>)
    ensures r.None? <==> forall i :: 1 <= i < |data| ==> !RowMatches(data, q, i)
    ensures r.Some? ==> 2 <= r.value.rowIndex <= |data|
    ensures r.Some? ==> IsFirstMatch(data, q, r.value.rowIndex - 1) && r.value == UserAt(data, r.value.rowIndex - 1)
  {
    var users := UsersOf(data);
    match FindFirst(users, q)
    case None =>
      LookupNone(data, q);
      None
    case Some(k) =>
      LookupSome(data, q, k);
      Some(users[k])
  }

  lemma LookupNone(data: Grid, q: Query)
    requires FindFirst(UsersOf(data), q).None?
    ensures forall i :: 1 <= i < |data| ==> !RowMatches(data, q, i)
  {
    forall i | 1 <= i < |data|
      ensures !RowMatches(data, q, i)
    {
      if RowMatches(data, q, i) {
        var k := UsersComplete(data, |data|, i);
      }
    }
  }

  lemma LookupSome(data: Grid, q: Query, k: nat)
    requires FindFirst(UsersOf(data), q) == Some(k)
    ensures var u := UsersOf(data)[k];
      2 <= u.rowIndex <= |data| && IsFirstMatch(data, q, u.rowIndex - 1) && u == UserAt(data, u.rowIndex - 1)
  {
    var users := UsersOf(data);
    UsersSound(data, |data|, k);
    var u := users[k];
    forall j | 1 <= j < u.rowIndex - 1
      ensures !RowMatches(data, q, j)
    {
      if RowMatches(data, q, j) {
        var k' := UsersComplete(data, |data|, j);
        if k' > k {
          UsersOrdered(data, |data|, k, k');
        }
      }
    }
  }

  /** `sheet.getRange(i + 1, c + 1).setValue(v)`: exactly one cell changes. */
  function SetCell(data: Grid, i: nat, c: nat, v: Value): (r: Grid)
    requires i < |data| && c < |data[i]|
    ensures |r| == |data|
    ensures forall j :: 0 <= j < |data| ==> |r[j]| == |data[j]|
    ensures r[i][c] == v
    ensures forall j, k :: 0 <= j < |data| && 0 <= k < |data[j]| && (j != i || k != c) ==> r[j][k] == data[j][k]
  {
    data[i := data[i][c := v]]
  }
}

=== FILE: values.dfy ===
/**
 * The JavaScript values that flow through the authentication script: cells
 * read from the user sheet, fields of a parsed request body, and parsed
 * session-token payloads.  Only the parts of JavaScript semantics the script
 * relies on are written out: truthiness (`if (x)`, `!x`), strict equality
 * (`===`), property lookup (`o.key`) and `v < n` against a number.
 */
module JsValues {

  datatype Option<+T> = None | Some(value: T)

  /** A JavaScript value.  Numbers are integral (timestamps in milliseconds);
      `Date` is a Date object holding its epoch time; `Obj` is a plain object
      given by its own properties in insertion order. */
  datatype Value =
    | Undefined
    | Null
    | Bool(b: bool)
    | Num(n: int)
    | Str(s: string)
    | Date(millis: int)
    | Obj(fields: seq<Field>)

  datatype Field = Field(key: string, val: Value)

  /** JavaScript truthiness: `undefined`, `null`, `false`, `0` and `""` are falsy;
      every object (a Date included) is truthy. */
  predicate Truthy(v: Value)
  {
    match v
    case Undefined => false
    case Null => false
    case Bool(b) => b
    case Num(n) => n != 0
    case Str(s) => s != ""
    case Date(_) => true
    case Obj(_) => true
  }

  /** `a === b`.  Primitives compare by value; two objects are equal only when
      they are the same object, and the values compared by the script always
      come from different sources, so objects never compare equal here. */
  predicate StrictEquals(a: Value, b: Value)
  {
    a == b && !a.Date? && !a.Obj?
  }

  /** The value of the first own property named `key`, or `undefined`. */
  function FieldValue(fields: seq<Field>, key: string): (v: Value)
    ensures v != Undefined ==> exists i :: 0 <= i < |fields| && fields[i].key == key && fields[i].val == v
    ensures (forall i :: 0 <= i < |fields| ==> fields[i].key != key) ==> v == Undefined
  {
    if |fields| == 0 then Undefined
    else if fields[0].key == key then fields[0].val
    else
      var v := FieldValue(fields[1..], key);
      assert forall i :: 1 <= i < |fields| ==> fields[1..][i - 1] == fields[i];
      v
  }

  /** `v.key` (also the destructuring `const { key } = v`) for a non-null `v`:
      primitives and Dates have none of the properties the script reads. */
  function Get(v: Value, key: string): Value
  {
    if v.Obj? then FieldValue(v.fields, key) else Undefined
  }

  predicate DistinctKeys(fields: seq<Field>)
  {
    forall i, j :: 0 <= i < j < |fields| ==> fields[i].key != fields[j].key
  }

  /** The values that survive `JSON.parse(JSON.stringify(v))` unchanged:
      no `undefined`, no Date (stringified to text), objects with distinct keys
      none of which is made of digits only (`JSON.stringify` moves array-index
      keys to the front, so the property order would change). */
  predicate IsJson(v: Value)
    decreases v
  {
    match v
    case Undefined => false
    case Date(_) => false
    case Obj(fields) =>
      DistinctKeys(fields) &&
      forall i :: 0 <= i < |fields| ==> !IsDigitKey(fields[i].key) && IsJson(fields[i].val)
    case _ => true
  }

  predicate IsDigit(c: char) { '0' <= c <= '9' }

  /** The number a string of decimal digits denotes; `""` denotes 0. */
  function DecimalValue(s: string): nat
    requires forall i :: 0 <= i < |s| ==> IsDigit(s[i])
  {
    if |s| == 0 then 0
    else
      assert IsDigit(s[|s| - 1]);
      DecimalValue(s[..|s| - 1]) * 10 + (s[|s| - 1] as int - '0' as int)
  }

  /** A non-empty key made only of digits.  Every array index ("0", "7",
      "42") is one; objects list such keys before all other keys. */
  predicate IsDigitKey(k: string)
  {
    |k| > 0 && forall i :: 0 <= i < |k| ==> IsDigit(k[i])
  }

  /** Whether converting `v` to a number throws a TypeError.  For an object the
      conversion tries `valueOf` and then `toString`, skipping any that is not a
      function; the inherited `valueOf` returns the object itself, so an own
      `toString` property that is not a function (as in every parsed JSON
      object) leaves nothing to call. */
  predicate ConversionThrows(v: Value)
  {
    v.Obj? && exists i :: 0 <= i < |v.fields| && v.fields[i].key == "toString"
  }

  /** The text of that TypeError, as the V8 runtime words it. */
  const ConversionError := "TypeError: Cannot convert object to primitive value"

  /** `Number(v)`, with `None` for NaN, for a `v` whose conversion does not
      throw.  A string converts only when it is a plain run of decimal digits
      (the empty string gives 0); an object without an own `toString` becomes
      the text "[object Object]", which is NaN. */
  function ToNumber(v: Value): Option<int>
  {
    match v
    case Undefined => None
    case Null => Some(0)
    case Bool(b) => Some(if b then 1 else 0)
    case Num(n) => Some(n)
    case Str(s) =>
      if forall i :: 0 <= i < |s| ==> IsDigit(s[i]) then Some(DecimalValue(s)) else None
    case Date(ms) => Some(ms)
    case Obj(_) => None
  }

  /** `v < n` for a number `n`, where `v` does not throw on conversion: false
      whenever `v` converts to NaN. */
  predicate LessThan(v: Value, n: int)
  {
    match ToNumber(v)
    case None => false
    case Some(m) => m < n
  }
}
